=== FILE: README.md ===
# Glow's PyTorch runner registry and dispatch, modelled in Dafny

This project models the core of `torch_glow/src/Registration.cpp`. That file connects
PyTorch's JIT to the Glow compiler. When the JIT meets a Glow fusion node, the operator
factory has to find a compiled `CachingGraphRunner` for the node's subgraph. It keeps one
in a process-wide registry so the subgraph is not compiled twice. It then returns an
operation that runs that runner. When `signalHandlerOverridesEnabled()` holds and the
`signal()` calls that install them succeed, SIGINT and SIGTERM have their default
dispositions during the run, so a long backend run can still be killed. This holds as
long as no other invocation of the operation overlaps it. The handler table is
process-wide and the wrapper takes no lock, so an overlapping invocation can put the host
handler back in the middle of the run. A backend error
becomes a thrown `std::invalid_argument`.

Modules, one per component of the file:

- `Registry` (`registry.dfy`) covers the runner map and its four entry points. These are
  size, lookup, insert-if-absent with a builder closure, and remove. Each is an atomic
  transition on an immutable `map<string, Handle>`. `Handle` is a nullable
  `shared_ptr`: `Null | Ptr(Runner)`. A builder closure either gives a handle or throws,
  and a throw leaves the map unchanged. Builder calls are counted in the result. The
  source's `CHECK(ret.second)` is an `assert` that the verifier discharges.
- `StructuralKey` (`structural_key.dfy`) covers the key built from the subgraph block's
  address. That address is a 64-bit word whose 8 bytes are copied into a string. Byte
  order is a parameter because it depends on the platform. The module proves the key's
  length, that decoding the key gives back the word, and that the encoding is injective.
- `Resolution` (`resolution.dfy`) covers the factory's three-step policy. It tries the
  structural key, then the node's qualified symbol, and then installs a new runner under
  the structural key. `Resolve` performs the three steps back to back.
- `Interleaving` (`interleaving.dfy`) models the same three steps as separate
  lock-guarded registry calls. Any number of factory calls for one node may interleave
  them in any order.
- `Execution` (`execution.dfy`) covers the operation body. It saves the two handlers and
  installs the defaults, picks `runOnly` or `run` from the runner's settings, restores
  the saved handlers that pass the source's test, and turns an error into a thrown
  failure. A `Result` holds the outcome. The backend may also throw out of the call.
  The restore is ordinary code after the call, so a throw skips it. The handler table is an abstract
  `HandlerTable`. Each `signal()` call is recorded, and any of them may fail with
  `SIG_ERR`.
- `Operator` (`operator.dfy`) composes resolution and execution. Together they are the
  lambda that `registerGlowOp` registers.
- `Wrappers` (`wrappers.dfy`) defines the `Result` type.

The restore test at `torch_glow/src/Registration.cpp:148-154` skips only null, `SIG_ERR`
and `SIG_DFL`. So a saved `SIG_IGN` is put back, and `Execution.Restorable` says exactly
that.

## Model

| member | source | states |
|---|---|---|
| `Registry.Size` | torch_glow/src/Registration.cpp:51-55 | The size is zero exactly when the registry is empty. Insert and remove state how they change it. |
| `Registry.Lookup` | torch_glow/src/Registration.cpp:57-67 | Returns the stored handle when the key is present and null when it is absent. A non-null answer implies the key is present. Lookup is a pure function, so it never changes the map. |
| `Registry.SetGraphRunnerForKey` | torch_glow/src/Registration.cpp:69-84 | Present key: returns the stored handle, does not call the builder, and leaves the map unchanged. Absent key: calls the builder exactly once. If the builder returns a handle, the call adds exactly `key -> handle`, grows the size by one and returns that handle. If the builder throws, the call throws too and the map is unchanged. No other key changes. The emplace after the confirmed absence always succeeds, so the CHECK never fires. |
| `Registry.RemoveGraphRunnerForKey` | torch_glow/src/Registration.cpp:86-95 | Returns true exactly when the key was present. Afterwards the key is absent and every other entry is unchanged. The size drops by one if the key was there; otherwise the map is identical. |
| `Registry.LookupAfterSet` | torch_glow/src/Registration.cpp:57-84 | A lookup right after insert-if-absent sees the handle the insert returned. After an insert whose builder threw, the lookup finds nothing. |
| `Registry.LookupAfterRemove` | torch_glow/src/Registration.cpp:57-95 | A lookup right after removing a key returns null. |
| `Registry.SetTwiceSameHandle` | torch_glow/src/Registration.cpp:75-78 | Two insert-if-absent calls on one key with different builders: if the first returns, the second returns the same handle, builds nothing and leaves the map unchanged. |
| `Registry.RetryAfterThrowBuildsAgain` | torch_glow/src/Registration.cpp:75-83 | If the key was absent and the first builder throws, nothing is installed. The next insert-if-absent on the key then behaves exactly as if it came first, and runs its own builder. |
| `Registry.AtMostOneBuild` | torch_glow/src/Registration.cpp:69-84 | Take any run of insert-if-absent calls on one key. If the key was present, nothing is built and every caller gets the stored handle. If it was absent, the builders run up to and including the first one that returns, and no builder after it runs. The callers whose builders threw get the exception. Only the first returning builder's handle is installed, and every later caller receives it. With builders that always return, this is exactly one build. |
| `Registry.EntryStableUntilRemoved` | torch_glow/src/Registration.cpp:51-95 | After any sequence of size, lookup, insert and remove operations that never removes a key, the key still maps to the same handle. |
| `Registry.NoNullsPreserved` | torch_glow/src/Registration.cpp:69-95 | If no builder yields null, a registry without null entries keeps that property through any sequence of operations. |
| `Registry.InstallLookupRemoveScenario` | torch_glow/src/Registration.cpp:51-95 | Concrete run: insert K1 with builder A gives A and size 1; lookup gives A; insert K1 with builder B gives A again without building; remove gives true and size 0; lookup then gives null. |
| `StructuralKey.KeyOf` | torch_glow/src/Registration.cpp:106-109 | The structural key has exactly sizeof(size_t) = 8 characters, and every character is one byte. |
| `StructuralKey.KeyRoundTrip` | torch_glow/src/Registration.cpp:106-109 | Reading the key's bytes back in the same byte order gives the block address it came from. |
| `StructuralKey.KeyOfInjective` | torch_glow/src/Registration.cpp:106-109 | Two block addresses give the same structural key if and only if they are equal. |
| `Resolution.NodeKey` | torch_glow/src/Registration.cpp:106-109 | A node's structural key has length sizeof(size_t). |
| `Resolution.Resolve` | torch_glow/src/Registration.cpp:101-125 | A non-null structural lookup is used. The symbol is consulted only when the structural lookup is null. A runner is built only when both lookups are null, and only under the structural key. Building happens at most once and only if the structural key was absent. Existing entries are never changed, and no key other than the structural one is added. |
| `Resolution.StructuralPrecedence` | torch_glow/src/Registration.cpp:110-115 | A structural hit wins even when a runner is also registered under the node's symbol. |
| `Resolution.SymbolIgnoredOnStructuralHit` | torch_glow/src/Registration.cpp:110-115 | When the structural key hits, the node's symbol has no effect on the result. |
| `Resolution.SymbolicEntryUntouched` | torch_glow/src/Registration.cpp:113-125 | Resolution never creates, replaces or removes the entry of the node's symbol, unless that symbol is itself the structural key. |
| `Resolution.SymbolOfOtherLengthIsNotStructural` | torch_glow/src/Registration.cpp:106-114 | A qualified symbol whose length is not 8 is always a different key from the node's structural key. |
| `Resolution.DistinctBlocksDistinctEntries` | torch_glow/src/Registration.cpp:106-111 | Nodes over different subgraph blocks look up different structural keys. |
| `Resolution.ResolveNeverNull` | torch_glow/src/Registration.cpp:110-125 | If the registry has no null entry, resolution returns a non-null runner and adds no null entry. |
| `Resolution.ResolveIdempotent` | torch_glow/src/Registration.cpp:110-125 | Resolving the same node a second time returns the same handle, builds nothing and leaves the registry unchanged. |
| `Resolution.CompiledAtMostOnce` | torch_glow/src/Registration.cpp:117-125 | Any number of factory calls for one node, one after another, build at most one runner, and all of them receive the handle the first call got. `Interleaving.InterleavedCompiledAtMostOnce` covers calls that overlap. |
| `Interleaving.InterleavedCompiledAtMostOnce` | torch_glow/src/Registration.cpp:69-125 | Take any number of factory calls for one node, whose three registry calls interleave in any schedule, on a registry without null entries. At most one runner is built, and none if the structural key or the symbol was already registered. The registry gains at most the structural entry. It changes exactly when a build happens, and then the new entry holds the runner one of the calls built. Every finished call holds the same non-null runner. That runner is the one under the structural key at the start, else the one under the symbol at the start, else the one now stored under the structural key. The re-check under the write lock is what makes this hold. |
| `Interleaving.Step` | torch_glow/src/Registration.cpp:110-124 | One registry call of one factory call: the structural lookup, the symbolic lookup, or the insert-if-absent, by phase. Only that call advances and keeps its runner. Only the insert can change the registry. When the structural key was absent, it stores exactly that call's own built runner under it and counts one build. Otherwise it changes nothing. After the insert the call holds what is stored under the structural key. |
| `Interleaving.UninterruptedCallIsResolve` | torch_glow/src/Registration.cpp:110-125 | A factory call whose three registry calls run without interruption has the same effect as `Resolution.Resolve`: the same registry, the same handle, the same number of builds. |
| `Execution.SignalSwap` | torch_glow/src/Registration.cpp:137-138 | `signal(s, h)` either fails, returning SIG_ERR and changing nothing, or returns the previous disposition of `s` and installs `h`. The other signal is untouched either way. |
| `Execution.Restorable` | torch_glow/src/Registration.cpp:148-155 | The restore test passes exactly for SIG_IGN and host handlers. It fails for null, SIG_ERR and SIG_DFL. |
| `Execution.InstallDefaults` | torch_glow/src/Registration.cpp:133-139 | With overrides disabled, no call is made, the table is unchanged and both saved values stay null. With overrides enabled, SIGINT then SIGTERM get SIG_DFL. Each saved value is the previous disposition, or SIG_ERR when that install failed. Each disposition is then SIG_DFL if its install succeeded and unchanged otherwise. |
| `Execution.RestoreOne` | torch_glow/src/Registration.cpp:148-151 | A saved handler that passes the restore test is passed to `signal()` once, and it becomes the disposition unless that call fails. A saved handler that fails the test causes no call and no change. The other signal is untouched. |
| `Execution.RestoreSaved` | torch_glow/src/Registration.cpp:147-155 | SIGINT is restored before SIGTERM, each only if its saved value passes the test. Each final disposition is the saved value when restored successfully, and otherwise the disposition after the installs. |
| `Execution.InstallThenRestore` | torch_glow/src/Registration.cpp:133-155 | Installing the defaults and then restoring gives each signal's final disposition in terms of its initial one and the failures. A signal is restored only when overriding is on, its install succeeded and its previous disposition passes the test. |
| `Execution.Execute` | torch_glow/src/Registration.cpp:127-160 | `runOnly` is chosen exactly when `preCompilePyTorchModule` is set. If the backend returns, the operation returns exactly when the error is empty; otherwise it throws `invalid_argument` carrying that error. If the backend throws, that exception propagates. With overrides disabled, no `signal()` call is made, and the dispositions during and after the run are unchanged. With overrides enabled, SIGINT then SIGTERM get SIG_DFL first. While the runner executes, each signal has SIG_DFL if its install succeeded, and otherwise keeps its previous disposition, with the handler table owned by this invocation. After a returning run, a saved handler is restored only when its install succeeded and it is non-null, not SIG_ERR and not SIG_DFL. The final disposition of each signal is stated in terms of its initial one. After a throwing run, nothing is restored. |
| `Execution.RestoreRegardlessOfOutcome` | torch_glow/src/Registration.cpp:141-155 | For backends that return, the `signal()` calls and the final dispositions do not depend on the backend or the stack. So restoration happens the same way whether the returned error is empty or not. |
| `Execution.HandlersRoundTrip` | torch_glow/src/Registration.cpp:129-155 | Suppose no `signal()` call fails, neither disposition was null or SIG_ERR beforehand, and the backend returns. Then the wrapper leaves both dispositions exactly as it found them. |
| `Execution.DefaultsDuringRun` | torch_glow/src/Registration.cpp:136-145 | With overrides enabled and both installs succeeding, both signals have SIG_DFL while `Execute` runs the runner. This holds when no other invocation overlaps this one. |
| `Execution.FailingRunRestoresHandler` | torch_glow/src/Registration.cpp:141-160 | A host SIGINT handler installed before a failing run is active again afterwards, and the failure surfaces as a thrown `invalid_argument`. |
| `Execution.ThrowingRunSkipsRestore` | torch_glow/src/Registration.cpp:141-155 | An exception out of the backend bypasses the restore. A host handler installed before the run stays replaced by SIG_DFL, only the two installs are made, and the exception propagates. |
| `Operator.Operate` | torch_glow/src/Registration.cpp:100-161 | The factory's resolved handle is run, which needs it to be non-null. The runner that runs is the non-null one under the structural key, else the non-null one under the symbol, else the newly built one. In the last case the structural key was absent and the registry gains exactly that entry. What the operation does is exactly `Execution.Execute` on that runner. A registry without null entries stays without them. |

## Left out

- Locking: the `shared_timed_mutex` reader/writer lock. Every registry operation is one atomic step, so interleavings inside a single registry operation are not modelled.
- `Resolution.Resolve` treats the factory's three registry calls as one step. Overlapping factory calls for one node are covered separately by `Interleaving`.
- `Interleaving.InterleavedCompiledAtMostOnce` interleaves only factory calls for the same node, starting from a registry without null entries. Other threads' inserts or removals between the steps are not part of its schedules. A concurrent removal of the structural key would allow a second build, as it would in the source.
- `Resolution.Resolve`, `Resolution.CompiledAtMostOnce` and `Interleaving.InterleavedCompiledAtMostOnce` assume the `CachingGraphRunner` constructor returns. If it throws, `Registry.SetGraphRunnerForKey` leaves the registry unchanged and the exception leaves the factory. The next factory call for the node then builds again, as `Registry.RetryAfterThrowBuildsAgain` shows for the registry alone.
- `Execution.DefaultsDuringRun` and `Execution.Execute` model the handler table as owned by one invocation at a time. The source takes no lock around the save, install and restore. So an overlapping invocation can restore the host handler while this one's backend still runs. It can also save SIG_DFL, and then it restores nothing.
- Block addresses: the address of the subgraph block is an abstract 64-bit word. Which address a block gets is not modelled.
- The OS signal table: it is the two-entry `HandlerTable`. Delivering a signal and terminating the process are not modelled.
- The backend's handler use: `Backend.run` and `Backend.runOnly` are opaque functions and are assumed not to touch the handler table.
- Error messages: `ERR_TO_STRING` rendering is not modelled. The thrown failure carries the `Error` value itself.
- `CachingGraphRunner` internals: its construction and the insides of `run`/`runOnly` are opaque. So are `getHostManager`, `getBackendName`, `getPyTorchLoaderSettings` and `signalHandlerOverridesEnabled`. The constructed runner and the overrides flag are parameters.
- Host registration glue: the `RegisterOperators` wrapper and the `PURE_FUNCTION` alias-analysis tag are left out, and so are `registerGlowFusionPass`, `registerGlowFusionOpAndPass` and `glowCustomFuse`. They belong to the host framework.
- Null runners: in the source, running a null handle dereferences a null `shared_ptr`, which is undefined behaviour. `Operator.Operate` therefore requires the resolved handle to be non-null, and `Resolution.ResolveNeverNull` shows that this always holds when the registry has no null entries. The model does not say what happens when a null is run.
- `Resolution.SymbolOfOtherLengthIsNotStructural`: a qualified symbol is a Dafny string of Unicode scalar values, while the source's `std::string` holds bytes. For a non-ASCII symbol the length counts code points, not bytes, so the lemma's length condition is read in code points.
- Null versus default handler: `NullHandler` and `SigDfl` are distinct values. On Linux `SIG_DFL` is the null pointer, so there the two coincide, and the model's results agree with that platform in both cases.

=== FILE: execution.dfy ===
/**
  The operation the factory returns for a resolved runner
  (torch_glow/src/Registration.cpp, lines 127-160): optionally swap the SIGINT
  and SIGTERM handlers for the default ones, run the runner in the mode its
  settings select, put back the saved handlers that are worth restoring, and
  turn a non-empty error into a thrown std::invalid_argument.
 */
module Execution {
  import opened Wrappers
  import opened Registry

  /** A signal disposition as signal() reports it: the null pointer, SIG_ERR,
      SIG_DFL, SIG_IGN, or a handler function of the host. */
  datatype Handler = NullHandler | SigErr | SigDfl | SigIgn | Custom(id: nat)

  datatype Signal = SigInt | SigTerm

  /** The process's current dispositions of the two signals the wrapper touches. */
  datatype HandlerTable = HandlerTable(sigint: Handler, sigterm: Handler)

  /** One call signal(sig, handler) made by the wrapper. */
  datatype SignalCall = SignalCall(sig: Signal, handler: Handler)

  /** Which calls to signal() fail (and return SIG_ERR, leaving the disposition
      as it was): the two installs and the two restores. */
  datatype SignalFaults = SignalFaults(installInt: bool, installTerm: bool, restoreInt: bool, restoreTerm: bool)

  /** The two capabilities of a CachingGraphRunner the wrapper uses. */
  datatype Mode = RunOnly | Run

  /** A glow Error: empty, or carrying a failure description. */
  datatype Error = NoError | Failed(message: string)

  /** One value on the interpreter stack. */
  datatype IValue = IValue(id: nat)

  type Stack = seq<IValue>

  /** What runOnly or run does: return an error (empty on success) together
      with the stack as the run left it, or throw a C++ exception out of the
      call, which the wrapper does not catch. */
  datatype Reply = Returned(err: Error, stack: Stack) | Threw(what: string)

  /** The backend behind a runner: what run and runOnly do with a stack. */
  datatype Backend = Backend(run: (Runner, Stack) -> Reply, runOnly: (Runner, Stack) -> Reply)

  /** What leaves the operation abnormally: the std::invalid_argument the wrapper
      throws for a non-empty error (carrying the error it was rendered from), or
      an exception from the backend passing straight through. */
  datatype Thrown = InvalidArgument(cause: Error) | Propagated(what: string)

  /** Everything one invocation of the wrapper does: the dispositions while the
      runner executes and after the operation, every signal() call it made in
      order, the mode it ran in, and whether it returned (with the resulting
      stack) or threw. */
  datatype Executed = Executed(
    during: HandlerTable,
    handlers: HandlerTable,
    signalCalls: seq<SignalCall>,
    mode: Mode,
    outcome: Result<Stack, Thrown>)

  function Disposition(t: HandlerTable, s: Signal): Handler
  {
    match s
    case SigInt => t.sigint
    case SigTerm => t.sigterm
  }

  /** What signal(s, h) returns and leaves behind: on failure SIG_ERR and no
      change, otherwise the previous disposition, with `h` installed. */
  function SignalSwap(t: HandlerTable, s: Signal, h: Handler, fails: bool): (r: (HandlerTable, Handler))
    ensures fails ==> r == (t, SigErr)
    ensures !fails ==> r.1 == Disposition(t, s) && Disposition(r.0, s) == h
    ensures forall s' :: s' != s ==> Disposition(r.0, s') == Disposition(t, s')
  {
    if fails then (t, SigErr)
    else
      match s
      case SigInt => (t.(sigint := h), t.sigint)
      case SigTerm => (t.(sigterm := h), t.sigterm)
  }

  /** The wrapper's test for putting a saved handler back: it must be non-null,
      not SIG_ERR and not SIG_DFL. SIG_IGN and host handlers pass. */
  function Restorable(h: Handler): (b: bool)
    ensures b <==> h == SigIgn || h.Custom?
  {
    h != NullHandler && h != SigErr && h != SigDfl
  }

  /** The disposition of one signal while the runner executes: SIG_DFL when
      overriding is on and the install succeeded, otherwise what it was. */
  function DispositionDuring(before: Handler, overrides: bool, installFails: bool): Handler
  {
    if overrides && !installFails then SigDfl else before
  }

  /** The disposition of one signal after a run that returned, given what it was
      before, whether overriding is on, and whether the install and restore calls
      fail. */
  function DispositionAfter(before: Handler, overrides: bool, installFails: bool, restoreFails: bool): Handler
  {
    if !overrides || installFails then before
    else if Restorable(before) && !restoreFails then before
    else SigDfl
  }

  /** The restore call the wrapper makes for one signal after a run that
      returned, if any: only when the install succeeded (so the saved value is
      the old disposition) and that disposition passes the wrapper's test. */
  function RestoreCalls(s: Signal, before: Handler, installFails: bool): seq<SignalCall>
  {
    if !installFails && Restorable(before) then [SignalCall(s, before)] else []
  }

  /** The table after the installs, the two saved handlers, and the calls made. */
  datatype Saved = Saved(table: HandlerTable, oldInt: Handler, oldTerm: Handler, calls: seq<SignalCall>)

  /** Saves the old handlers and installs the defaults; the saved values stay
      null when overriding is off. */
  function InstallDefaults(t: HandlerTable, overrides: bool, faults: SignalFaults): (r: Saved)
    ensures r.table.sigint == DispositionDuring(t.sigint, overrides, faults.installInt)
    ensures r.table.sigterm == DispositionDuring(t.sigterm, overrides, faults.installTerm)
    ensures !overrides ==> r.calls == [] && r.oldInt == NullHandler && r.oldTerm == NullHandler
    ensures overrides ==>
              && r.calls == [SignalCall(SigInt, SigDfl), SignalCall(SigTerm, SigDfl)]
              && r.oldInt == (if faults.installInt then SigErr else t.sigint)
              && r.oldTerm == (if faults.installTerm then SigErr else t.sigterm)
    ensures RestoreCalls(SigInt, r.oldInt, false) == if overrides then RestoreCalls(SigInt, t.sigint, faults.installInt) else []
    ensures RestoreCalls(SigTerm, r.oldTerm, false) == if overrides then RestoreCalls(SigTerm, t.sigterm, faults.installTerm) else []
  {
    if overrides then
      var (t1, oldInt) := SignalSwap(t, SigInt, SigDfl, faults.installInt);
      var (t2, oldTerm) := SignalSwap(t1, SigTerm, SigDfl, faults.installTerm);
      Saved(t2, oldInt, oldTerm, [SignalCall(SigInt, SigDfl), SignalCall(SigTerm, SigDfl)])
    else
      Saved(t, NullHandler, NullHandler, [])
  }

  /** Restores one saved handler if it passes the wrapper's test. */
  function RestoreOne(t: HandlerTable, calls: seq<SignalCall>, s: Signal, saved: Handler, fails: bool): (r: (HandlerTable, seq<SignalCall>))
    ensures r.1 == calls + (if Restorable(saved) then [SignalCall(s, saved)] else [])
    ensures Disposition(r.0, s) == if Restorable(saved) && !fails then saved else Disposition(t, s)
    ensures forall s' :: s' != s ==> Disposition(r.0, s') == Disposition(t, s')
  {
    if Restorable(saved) then (SignalSwap(t, s, saved, fails).0, calls + [SignalCall(s, saved)])
    else (t, calls)
  }

  /** Puts back both saved handlers that pass the wrapper's test, SIGINT first. */
  function RestoreSaved(saved: Saved, faults: SignalFaults): (r: (HandlerTable, seq<SignalCall>))
    ensures r.0.sigint == if Restorable(saved.oldInt) && !faults.restoreInt then saved.oldInt else saved.table.sigint
    ensures r.0.sigterm == if Restorable(saved.oldTerm) && !faults.restoreTerm then saved.oldTerm else saved.table.sigterm
    ensures r.1 == saved.calls + RestoreCalls(SigInt, saved.oldInt, false) + RestoreCalls(SigTerm, saved.oldTerm, false)
  {
    var (t3, calls3) := RestoreOne(saved.table, saved.calls, SigInt, saved.oldInt, faults.restoreInt);
    RestoreOne(t3, calls3, SigTerm, saved.oldTerm, faults.restoreTerm)
  }

  /** Installing the defaults and then restoring what passes the test leaves the
      dispositions DispositionAfter gives, and makes the restore calls
      RestoreCalls gives. */
  lemma InstallThenRestore(t: HandlerTable, overrides: bool, faults: SignalFaults)
    ensures var saved := InstallDefaults(t, overrides, faults);
            var (after, calls) := RestoreSaved(saved, faults);
            && after.sigint == DispositionAfter(t.sigint, overrides, faults.installInt, faults.restoreInt)
            && after.sigterm == DispositionAfter(t.sigterm, overrides, faults.installTerm, faults.restoreTerm)
            && calls == saved.calls + (if overrides then RestoreCalls(SigInt, t.sigint, faults.installInt)
                                                         + RestoreCalls(SigTerm, t.sigterm, faults.installTerm)
                                       else [])
  {
  }

  /** The capability the runner's settings select, applied to the stack. */
  function Chosen(runner: Runner, stack: Stack, backend: Backend): Reply
  {
    if runner.settings.preCompilePyTorchModule then backend.runOnly(runner, stack)
    else backend.run(runner, stack)
  }

  /** The operation body the factory returns, applied to one stack. The
      overrides flag is signalHandlerOverridesEnabled(). The restore is ordinary
      code after the call, so an exception out of the backend skips it. */
  function Execute(runner: Runner, stack: Stack, overrides: bool, t: HandlerTable,
                   faults: SignalFaults, backend: Backend): (r: Executed)
    ensures r.mode == RunOnly <==> runner.settings.preCompilePyTorchModule
    ensures var reply := Chosen(runner, stack, backend);
            && (reply.Threw? ==> r.outcome == Failure(Propagated(reply.what)))
            && (reply.Returned? ==>
                  && (reply.err.Failed? <==> r.outcome.Failure?)
                  && (r.outcome.Failure? ==> r.outcome.error == InvalidArgument(reply.err))
                  && (r.outcome.Success? ==> r.outcome.value == reply.stack))
    ensures r.during.sigint == DispositionDuring(t.sigint, overrides, faults.installInt)
    ensures r.during.sigterm == DispositionDuring(t.sigterm, overrides, faults.installTerm)
    ensures !overrides ==> r.signalCalls == [] && r.handlers == t && r.during == t
    ensures overrides ==>
              && |r.signalCalls| >= 2
              && r.signalCalls[0] == SignalCall(SigInt, SigDfl)
              && r.signalCalls[1] == SignalCall(SigTerm, SigDfl)
    ensures overrides && Chosen(runner, stack, backend).Returned? ==>
              r.signalCalls[2..] == RestoreCalls(SigInt, t.sigint, faults.installInt)
                                    + RestoreCalls(SigTerm, t.sigterm, faults.installTerm)
    ensures Chosen(runner, stack, backend).Returned? ==>
              && r.handlers.sigint == DispositionAfter(t.sigint, overrides, faults.installInt, faults.restoreInt)
              && r.handlers.sigterm == DispositionAfter(t.sigterm, overrides, faults.installTerm, faults.restoreTerm)
    ensures Chosen(runner, stack, backend).Threw? ==>
              && r.handlers == r.during
              && |r.signalCalls| == (if overrides then 2 else 0)
  {
    var saved := InstallDefaults(t, overrides, faults);
    var mode := if runner.settings.preCompilePyTorchModule then RunOnly else Run;
    match Chosen(runner, stack, backend)
    case Threw(what) =>
      // The exception leaves the operation before the restore code is reached.
      Executed(saved.table, saved.table, saved.calls, mode, Failure(Propagated(what)))
    case Returned(err, after) =>
      // Put back whatever is worth restoring, whatever the error.
      InstallThenRestore(t, overrides, faults);
      var (t4, calls4) := RestoreSaved(saved, faults);
      var outcome := if err.Failed? then Failure(InvalidArgument(err)) else Success(after);
      Executed(saved.table, t4, calls4, mode, outcome)
  }

  /** The cleanup does not depend on the result of a run that returns: whether
      the backend reports an error or not, the wrapper makes the same signal()
      calls and leaves the same dispositions. */
  lemma RestoreRegardlessOfOutcome(runner: Runner, s1: Stack, s2: Stack, overrides: bool,
                                   t: HandlerTable, faults: SignalFaults, b1: Backend, b2: Backend)
    requires Chosen(runner, s1, b1).Returned? && Chosen(runner, s2, b2).Returned?
    ensures Execute(runner, s1, overrides, t, faults, b1).handlers
            == Execute(runner, s2, overrides, t, faults, b2).handlers
    ensures Execute(runner, s1, overrides, t, faults, b1).signalCalls
            == Execute(runner, s2, overrides, t, faults, b2).signalCalls
  {
  }

  /** When no signal() call fails, neither disposition was null or SIG_ERR
      beforehand and the run returns, the wrapper leaves the dispositions exactly
      as it found them. */
  lemma HandlersRoundTrip(runner: Runner, stack: Stack, overrides: bool, t: HandlerTable, backend: Backend)
    requires t.sigint != NullHandler && t.sigint != SigErr
    requires t.sigterm != NullHandler && t.sigterm != SigErr
    requires Chosen(runner, stack, backend).Returned?
    ensures Execute(runner, stack, overrides, t, SignalFaults(false, false, false, false), backend).handlers == t
  {
  }

  /** While the runner executes with overriding on and both installs succeeding,
      both signals have the default disposition, so the process can be killed. */
  lemma DefaultsDuringRun(runner: Runner, stack: Stack, t: HandlerTable, faults: SignalFaults, backend: Backend)
    requires !faults.installInt && !faults.installTerm
    ensures Execute(runner, stack, true, t, faults, backend).during == HandlerTable(SigDfl, SigDfl)
  {
  }

  /** A host handler installed before a failing run is active again after it, and
      the failure reaches the host as a thrown invalid_argument. */
  lemma FailingRunRestoresHandler(runner: Runner, stack: Stack, host: nat, term: Handler, message: string)
    requires !runner.settings.preCompilePyTorchModule
    ensures var failing := Backend((r, s) => Returned(Failed(message), s), (r, s) => Returned(NoError, s));
            var ex := Execute(runner, stack, true, HandlerTable(Custom(host), term),
                              SignalFaults(false, false, false, false), failing);
            && ex.handlers.sigint == Custom(host)
            && ex.outcome == Failure(InvalidArgument(Failed(message)))
  {
  }

  /** An exception out of the backend skips the restore: a host handler installed
      before the run is left replaced by SIG_DFL, and the exception propagates. */
  lemma ThrowingRunSkipsRestore(runner: Runner, stack: Stack, host: nat, what: string)
    ensures var throwing := Backend((r, s) => Threw(what), (r, s) => Threw(what));
            var ex := Execute(runner, stack, true, HandlerTable(Custom(host), Custom(host)),
                              SignalFaults(false, false, false, false), throwing);
            && ex.handlers == HandlerTable(SigDfl, SigDfl)
            && ex.signalCalls == [SignalCall(SigInt, SigDfl), SignalCall(SigTerm, SigDfl)]
            && ex.outcome == Failure(Propagated(what))
  {
  }
}

=== FILE: interleaving.dfy ===
/**
  Concurrent factory calls for one fusion node. Each call makes three separate
  lock-guarded registry calls (torch_glow/src/Registration.cpp, lines 110-111,
  114 and 120), and other calls may run between them. This module lets a
  schedule pick which call takes its next step and shows that the re-check in
  setGraphRunnerForKey (lines 75-78) still keeps the node from being compiled
  twice.
 */
module Interleaving {
  import opened Registry
  import opened StructuralKey
  import opened Resolution

  /** Where one factory call stands between its registry calls. */
  datatype Phase = Starting | MissedStructural | MissedBoth | Holding(handle: Handle)

  /** One factory call in flight: the runner its builder would construct, and its phase. */
  datatype Call = Call(built: Runner, phase: Phase)

  /** The registry, the calls in flight, and how many runners have been built. */
  datatype World = World(runners: RunnerMap, calls: seq<Call>, builds: nat)

  /** Every call starting out on the registry `m`. */
  function Initial(m: RunnerMap, built: seq<Runner>): (w: World)
    ensures |w.calls| == |built|
  {
    World(m, seq(|built|, i requires 0 <= i < |built| => Call(built[i], Starting)), 0)
  }

  /** Call `i` makes its next registry call, holding the lock only for that call.
      Only that call moves on, only an insert touches the registry, and the
      insert adds at most the structural entry. */
  function Step(w: World, e: Endianness, node: Node, i: nat): (w': World)
    requires i < |w.calls|
    ensures |w'.calls| == |w.calls|
    ensures forall j :: 0 <= j < |w.calls| && j != i ==> w'.calls[j] == w.calls[j]
    ensures w'.calls[i].built == w.calls[i].built
    ensures w.calls[i].phase.Holding? ==> w' == w
    ensures !w.calls[i].phase.MissedBoth? ==> w'.runners == w.runners && w'.builds == w.builds
    ensures w.calls[i].phase.MissedBoth? ==> w'.calls[i].phase == Holding(Lookup(w'.runners, NodeKey(e, node)))
    ensures w.calls[i].phase.MissedBoth? && NodeKey(e, node) !in w.runners ==>
              w'.runners == w.runners[NodeKey(e, node) := Ptr(w.calls[i].built)]
    ensures Extends(w.runners, w'.runners)
    ensures SameExcept(w.runners, w'.runners, NodeKey(e, node))
    ensures w'.builds == w.builds + (if w.calls[i].phase.MissedBoth? && NodeKey(e, node) !in w.runners then 1 else 0)
  {
    var sk := NodeKey(e, node);
    var c := w.calls[i];
    match c.phase
    case Starting =>
      var h := Lookup(w.runners, sk);
      w.(calls := w.calls[i := c.(phase := if h.Ptr? then Holding(h) else MissedStructural)])
    case MissedStructural =>
      var h := Lookup(w.runners, node.symbol);
      w.(calls := w.calls[i := c.(phase := if h.Ptr? then Holding(h) else MissedBoth)])
    case MissedBoth =>
      var ins := SetGraphRunnerForKey(w.runners, sk, () => Gives(Ptr(c.built)));
      World(ins.runners, w.calls[i := c.(phase := Holding(ins.outcome.handle))], w.builds + ins.builderCalls)
    case Holding(_) =>
      w
  }

  /** The world after the calls named by `schedule` take their steps in order;
      names of calls that do not exist are skipped. */
  function RunSchedule(w: World, e: Endianness, node: Node, schedule: seq<nat>): (w': World)
    ensures |w'.calls| == |w.calls|
    ensures forall i :: 0 <= i < |w.calls| ==> w'.calls[i].built == w.calls[i].built
    decreases |schedule|
  {
    if |schedule| == 0 then w
    else
      var w1 := if schedule[0] < |w.calls| then Step(w, e, node, schedule[0]) else w;
      RunSchedule(w1, e, node, schedule[1..])
  }

  /** The one runner every finished call must hold, given the registry `m0` the
      calls started on and the registry `m` now. */
  function Canonical(m0: RunnerMap, m: RunnerMap, sk: Key, symbol: Key): Handle
  {
    if sk in m0 then m0[sk]
    else if symbol in m0 then m0[symbol]
    else if sk in m then m[sk]
    else Null
  }

  ghost predicate PhaseOk(m0: RunnerMap, m: RunnerMap, sk: Key, symbol: Key, p: Phase) {
    match p
    case Starting => true
    case MissedStructural => sk !in m0
    case MissedBoth => sk !in m0 && symbol !in m0
    case Holding(h) => h.Ptr? && h == Canonical(m0, m, sk, symbol)
  }

  /** The registry is the start registry, or it gained exactly the structural
      entry, holding the runner one of the calls built, and exactly one build
      happened (only possible when neither key was registered); each call's
      phase is consistent with that. */
  ghost predicate Inv(m0: RunnerMap, w: World, e: Endianness, node: Node) {
    var sk := NodeKey(e, node);
    && NoNulls(w.runners)
    && (|| (w.runners == m0 && w.builds == 0)
        || (&& sk !in m0 && node.symbol !in m0 && sk in w.runners
            && w.runners == m0[sk := w.runners[sk]] && w.builds == 1
            && exists j :: 0 <= j < |w.calls| && w.runners[sk] == Ptr(w.calls[j].built)))
    && forall i :: 0 <= i < |w.calls| ==> PhaseOk(m0, w.runners, sk, node.symbol, w.calls[i].phase)
  }

  lemma StepKeepsInv(m0: RunnerMap, w: World, e: Endianness, node: Node, i: nat)
    requires NoNulls(m0)
    requires i < |w.calls|
    requires Inv(m0, w, e, node)
    ensures Inv(m0, Step(w, e, node, i), e, node)
  {
    var sk := NodeKey(e, node);
    var w' := Step(w, e, node, i);
    if w.calls[i].phase.MissedBoth? && sk !in w.runners {
      // The only step that changes the registry: nobody can be holding a
      // runner yet, because the canonical one does not exist.
      assert w.runners == m0;
      forall j | 0 <= j < |w'.calls|
        ensures PhaseOk(m0, w'.runners, sk, node.symbol, w'.calls[j].phase)
      {
        if j != i {
          assert PhaseOk(m0, w.runners, sk, node.symbol, w.calls[j].phase);
          assert Canonical(m0, w.runners, sk, node.symbol) == Null;
        }
      }
    } else {
      assert w'.runners == w.runners;
      forall j | 0 <= j < |w'.calls|
        ensures PhaseOk(m0, w'.runners, sk, node.symbol, w'.calls[j].phase)
      {
        if j != i {
          assert PhaseOk(m0, w.runners, sk, node.symbol, w.calls[j].phase);
        }
      }
    }
  }

  lemma {:induction false} ScheduleKeepsInv(m0: RunnerMap, w: World, e: Endianness, node: Node, schedule: seq<nat>)
    requires NoNulls(m0)
    requires Inv(m0, w, e, node)
    ensures Inv(m0, RunSchedule(w, e, node, schedule), e, node)
    decreases |schedule|
  {
    if |schedule| > 0 {
      var w1 := if schedule[0] < |w.calls| then Step(w, e, node, schedule[0]) else w;
      if schedule[0] < |w.calls| {
        StepKeepsInv(m0, w, e, node, schedule[0]);
      }
      ScheduleKeepsInv(m0, w1, e, node, schedule[1..]);
    }
  }

  /** No recompilation under concurrency: however the registry calls of any
      number of factory calls for one node interleave, at most one runner is
      built (none if the structural key or the symbol was already registered),
      the registry gains at most the structural entry, and every call that has
      finished holds the same non-null runner. The registry changes exactly when
      a build happens, and then it gains the runner one of the calls built. The
      runner every finished call holds is the one registered under the
      structural key at the start, else the one registered under the symbol at
      the start, else the one now stored under the structural key. */
  lemma InterleavedCompiledAtMostOnce(m0: RunnerMap, e: Endianness, node: Node,
                                      built: seq<Runner>, schedule: seq<nat>)
    requires NoNulls(m0)
    ensures var w := RunSchedule(Initial(m0, built), e, node, schedule);
            && w.builds <= 1
            && (w.builds == 0 <==> w.runners == m0)
            && (w.builds == 1 ==>
                  exists j :: 0 <= j < |built| && w.runners == m0[NodeKey(e, node) := Ptr(built[j])])
            && (NodeKey(e, node) in m0 || node.symbol in m0 ==> w.builds == 0 && w.runners == m0)
            && Extends(m0, w.runners)
            && SameExcept(m0, w.runners, NodeKey(e, node))
            && NoNulls(w.runners)
            && (forall i :: 0 <= i < |w.calls| && w.calls[i].phase.Holding? ==> w.calls[i].phase.handle.Ptr?)
            && (forall i, j :: 0 <= i < |w.calls| && 0 <= j < |w.calls|
                               && w.calls[i].phase.Holding? && w.calls[j].phase.Holding?
                               ==> w.calls[i].phase.handle == w.calls[j].phase.handle)
            && (forall i :: 0 <= i < |w.calls| && w.calls[i].phase.Holding? ==>
                  w.calls[i].phase.handle
                  == (if NodeKey(e, node) in m0 then m0[NodeKey(e, node)]
                      else if node.symbol in m0 then m0[node.symbol]
                      else Lookup(w.runners, NodeKey(e, node))))
  {
    var w0 := Initial(m0, built);
    assert Inv(m0, w0, e, node);
    ScheduleKeepsInv(m0, w0, e, node, schedule);
    var w := RunSchedule(w0, e, node, schedule);
    var sk := NodeKey(e, node);
    forall i | 0 <= i < |w.calls| && w.calls[i].phase.Holding?
      ensures w.calls[i].phase.handle == Canonical(m0, w.runners, sk, node.symbol)
    {
      assert PhaseOk(m0, w.runners, sk, node.symbol, w.calls[i].phase);
    }
  }

  /** A call that runs its three registry calls without interruption does
      exactly what the atomic resolution policy does. */
  lemma UninterruptedCallIsResolve(w: World, e: Endianness, node: Node, i: nat)
    requires i < |w.calls|
    requires w.calls[i].phase == Starting
    ensures var w3 := Step(Step(Step(w, e, node, i), e, node, i), e, node, i);
            var r := Resolve(w.runners, e, node, w.calls[i].built);
            && w3.runners == r.runners
            && w3.calls[i].phase == Holding(r.handle)
            && w3.builds == w.builds + r.builderCalls
  {
  }
}

=== FILE: operator.dfy ===
/**
  The operator registerGlowOp installs (torch_glow/src/Registration.cpp,
  lines 100-161): the factory resolves a graph runner for the fusion node, and
  the operation it returns runs that runner through the execution wrapper.
 */
module Operator {
  import opened Registry
  import opened StructuralKey
  import opened Resolution
  import opened Execution

  /** One factory call followed by one invocation of the operation it returned:
      the registry afterwards, the runner that ran, and what the wrapper did. */
  datatype Operated = Operated(runners: RunnerMap, ran: Runner, executed: Executed)

  /** Resolves the node's runner and runs it on `stack`. The operation
      dereferences the resolved handle, so that handle must not be null. */
  function Operate(m: RunnerMap, e: Endianness, node: Node, built: Runner, stack: Stack,
                   overrides: bool, t: HandlerTable, faults: SignalFaults, backend: Backend): (r: Operated)
    requires Resolve(m, e, node, built).handle.Ptr?
    ensures NoNulls(m) ==> NoNulls(r.runners)
    ensures var sk := NodeKey(e, node);
            if Lookup(m, sk).Ptr? then r.ran == m[sk].runner && r.runners == m
            else if Lookup(m, node.symbol).Ptr? then r.ran == m[node.symbol].runner && r.runners == m
            else sk !in m && r.ran == built && r.runners == m[sk := Ptr(built)]
    ensures r.executed == Execute(r.ran, stack, overrides, t, faults, backend)
    ensures r.executed.mode == RunOnly <==> r.ran.settings.preCompilePyTorchModule
    ensures !overrides ==> r.executed.handlers == t
  {
    var resolved := Resolve(m, e, node, built);
    Operated(resolved.runners, resolved.handle.runner,
             Execute(resolved.handle.runner, stack, overrides, t, faults, backend))
  }
}

=== FILE: registry.dfy ===
/**
  The process-wide map of preloaded graph runners (torch_glow/src/Registration.cpp,
  lines 39-95). Every operation runs under the map's reader/writer lock in the
  source; here each one is a single atomic transition on an immutable map.
 */
module Registry {

  /** The settings snapshot a CachingGraphRunner carries; the wrapper reads one flag. */
  datatype Settings = Settings(preCompilePyTorchModule: bool)

  /** A compiled graph runner, known only by its identity and its settings. */
  datatype Runner = Runner(id: nat, settings: Settings)

  /** A std::shared_ptr<CachingGraphRunner>: null, or sharing one runner. */
  datatype Handle = Null | Ptr(runner: Runner)

  /** Keys are strings, structural keys and qualified symbol names alike.
      Structural keys use only characters below 256. */
  type Key = string

  type RunnerMap = map<Key, Handle>

  /** How a builder closure, or setGraphRunnerForKey itself, finishes: it gives
      back a handle, or an exception leaves it. */
  datatype Yield = Gives(handle: Handle) | Throws

  /** The closure handed to setGraphRunnerForKey; it builds the runner to install. */
  type Builder = () -> Yield

  /** What setGraphRunnerForKey leaves behind: the new map, how the call finished,
      and how many times it invoked the builder. */
  datatype Inserted = Inserted(runners: RunnerMap, outcome: Yield, builderCalls: nat)

  /** What removeGraphRunnerForKey leaves behind: the new map and its boolean answer. */
  datatype Removed = Removed(runners: RunnerMap, existed: bool)

  /** No entry of the map holds a null handle. */
  ghost predicate NoNulls(m: RunnerMap) {
    forall k :: k in m ==> m[k].Ptr?
  }

  /** Every entry of `m` is still present, with the same handle, in `m'`. */
  ghost predicate Extends(m: RunnerMap, m': RunnerMap) {
    forall k :: k in m ==> k in m' && m'[k] == m[k]
  }

  /** `m` and `m'` agree on every key other than `key`. */
  ghost predicate SameExcept(m: RunnerMap, m': RunnerMap, key: Key) {
    forall k :: k != key ==> (k in m' <==> k in m) && (k in m ==> m'[k] == m[k])
  }

  /** getGraphRunnerMapSize: the number of entries. */
  function Size(m: RunnerMap): (n: nat)
    ensures n == 0 <==> m == map[]
  {
    |m|
  }

  /** getGraphRunnerForKey: the stored handle, or null when the key is absent.
      A stored null handle is indistinguishable from absence. */
  function Lookup(m: RunnerMap, key: Key): (h: Handle)
    ensures key in m ==> h == m[key]
    ensures key !in m ==> h == Null
    ensures h.Ptr? ==> key in m
  {
    if key !in m then Null else m[key]
  }

  /** std::unordered_map::emplace: inserts only into a free slot and reports
      whether it did. */
  function Emplace(m: RunnerMap, key: Key, h: Handle): (RunnerMap, bool)
  {
    if key in m then (m, false) else (m[key := h], true)
  }

  /** setGraphRunnerForKey: returns the runner already stored under `key`, or
      builds one, installs it and returns it. A builder that throws leaves the
      map as it was and the exception leaves the call (the lock is released on
      the way out). The source's CHECK that the emplace succeeded is discharged
      here as a proof obligation. */
  function SetGraphRunnerForKey(m: RunnerMap, key: Key, builder: Builder): (r: Inserted)
    ensures key in m ==> r.builderCalls == 0 && r.outcome == Gives(m[key]) && r.runners == m
    ensures key !in m ==> r.builderCalls == 1 && r.outcome == builder()
    ensures key !in m && builder().Gives? ==> r.runners == m[key := builder().handle]
    ensures r.outcome.Throws? <==> key !in m && builder().Throws?
    ensures r.outcome.Throws? ==> r.runners == m
    ensures r.outcome.Gives? ==> key in r.runners && r.runners[key] == r.outcome.handle
    ensures SameExcept(m, r.runners, key)
    ensures Extends(m, r.runners)
    ensures Size(r.runners) == if r.outcome.Gives? && key !in m then Size(m) + 1 else Size(m)
  {
    if key in m then
      Inserted(m, Gives(m[key]), 0)
    else
      match builder()
      case Throws =>
        Inserted(m, Throws, 1)
      case Gives(runner) =>
        var (m', inserted) := Emplace(m, key, runner);
        assert inserted;
        Inserted(m', Gives(runner), 1)
  }

  /** removeGraphRunnerForKey: erases `key` and reports whether it was there. */
  function RemoveGraphRunnerForKey(m: RunnerMap, key: Key): (r: Removed)
    ensures r.existed <==> key in m
    ensures key !in r.runners
    ensures SameExcept(m, r.runners, key)
    ensures r.runners.Keys == m.Keys - {key}
    ensures !r.existed ==> r.runners == m
    ensures Size(r.runners) == if r.existed then Size(m) - 1 else Size(m)
  {
    if key !in m then
      Removed(m, false)
    else
      var m' := m - {key};
      assert m.Keys == m'.Keys + {key};
      Removed(m', true)
  }

  /** A lookup right after an insert-if-absent sees the handle the insert
      returned; after a throwing insert it still finds nothing. */
  lemma LookupAfterSet(m: RunnerMap, key: Key, builder: Builder)
    ensures var r := SetGraphRunnerForKey(m, key, builder);
            && (r.outcome.Gives? ==> Lookup(r.runners, key) == r.outcome.handle)
            && (r.outcome.Throws? ==> Lookup(r.runners, key) == Null)
  {
  }

  /** A lookup right after a removal finds nothing. */
  lemma LookupAfterRemove(m: RunnerMap, key: Key)
    ensures Lookup(RemoveGraphRunnerForKey(m, key).runners, key) == Null
  {
  }

  /** Two insert-if-absent calls on the same key with different builders: when the
      first one returns, the second gets the same handle, never builds and never
      changes the map. */
  lemma SetTwiceSameHandle(m: RunnerMap, key: Key, b1: Builder, b2: Builder)
    ensures var first := SetGraphRunnerForKey(m, key, b1);
            var second := SetGraphRunnerForKey(first.runners, key, b2);
            first.outcome.Gives? ==>
              && second.outcome == first.outcome
              && second.builderCalls == 0
              && second.runners == first.runners
  {
  }

  /** When the first builder throws, nothing was installed, so the next
      insert-if-absent on the key runs its own builder, as if it came first. */
  lemma RetryAfterThrowBuildsAgain(m: RunnerMap, key: Key, b1: Builder, b2: Builder)
    requires key !in m
    requires b1().Throws?
    ensures var first := SetGraphRunnerForKey(m, key, b1);
            var second := SetGraphRunnerForKey(first.runners, key, b2);
            && first.outcome == Throws
            && second == SetGraphRunnerForKey(m, key, b2)
            && first.builderCalls + second.builderCalls == 2
  {
  }

  /** A run of insert-if-absent calls on one key with a sequence of builders:
      the final map, how every call finished, and the total number of builds. */
  function SetMany(m: RunnerMap, key: Key, builders: seq<Builder>): (RunnerMap, seq<Yield>, nat)
    decreases |builders|
  {
    if |builders| == 0 then
      (m, [], 0)
    else
      var first := SetGraphRunnerForKey(m, key, builders[0]);
      var rest := SetMany(first.runners, key, builders[1..]);
      (rest.0, [first.outcome] + rest.1, first.builderCalls + rest.2)
  }

  /** The position of the first builder that returns, or |builders| if all throw. */
  function FirstGiving(builders: seq<Builder>): (n: nat)
    ensures n <= |builders|
    ensures forall i :: 0 <= i < n ==> builders[i]().Throws?
    ensures n < |builders| ==> builders[n]().Gives?
    decreases |builders|
  {
    if |builders| == 0 then 0
    else if builders[0]().Gives? then 0
    else 1 + FirstGiving(builders[1..])
  }

  /** At most one installed build: however many callers race to install a runner
      under one key, the builders of the callers up to the first one whose builder
      returns run, each once, and no later builder runs. The callers whose builders
      threw get the exception; every other caller receives the handle that ends up
      stored under the key. With builders that return, that is exactly one build
      when the key was absent and none when it was present. */
  lemma {:induction false} AtMostOneBuild(m: RunnerMap, key: Key, builders: seq<Builder>)
    ensures var (m', outcomes, calls) := SetMany(m, key, builders);
            var n := FirstGiving(builders);
            && |outcomes| == |builders|
            && calls == (if key in m then 0 else if n < |builders| then n + 1 else n)
            && m' == (if key in m then m else if n < |builders| then m[key := builders[n]().handle] else m)
            && (forall i :: 0 <= i < |outcomes| && key !in m && i < n ==> outcomes[i] == Throws)
            && (forall i :: 0 <= i < |outcomes| && (key in m || n <= i) ==>
                  key in m' && outcomes[i] == Gives(m'[key]))
    decreases |builders|
  {
    if |builders| > 0 {
      var first := SetGraphRunnerForKey(m, key, builders[0]);
      var rest := SetMany(first.runners, key, builders[1..]);
      AtMostOneBuild(first.runners, key, builders[1..]);
      var outcomes := SetMany(m, key, builders).1;
      assert outcomes == [first.outcome] + rest.1;
      if key !in m && builders[0]().Throws? {
        assert FirstGiving(builders) == 1 + FirstGiving(builders[1..]);
        forall i | 1 <= i < |builders|
          ensures builders[1..][i - 1] == builders[i]
        {
        }
      }
    }
  }

  /** One operation of the registry's public surface. */
  datatype Op =
    | SizeOp
    | LookupOp(key: Key)
    | SetOp(key: Key, builder: Builder)
    | RemoveOp(key: Key)

  /** The map after one operation; size and lookup only read it. */
  function Apply(m: RunnerMap, op: Op): RunnerMap
  {
    match op
    case SizeOp => m
    case LookupOp(_) => m
    case SetOp(key, builder) => SetGraphRunnerForKey(m, key, builder).runners
    case RemoveOp(key) => RemoveGraphRunnerForKey(m, key).runners
  }

  /** The map after a sequence of operations, applied in order. */
  function ApplyAll(m: RunnerMap, ops: seq<Op>): RunnerMap
    decreases |ops|
  {
    if |ops| == 0 then m else ApplyAll(Apply(m, ops[0]), ops[1..])
  }

  /** No operation in `ops` removes `key`. */
  ghost predicate NeverRemoves(ops: seq<Op>, key: Key) {
    forall i :: 0 <= i < |ops| ==> !(ops[i].RemoveOp? && ops[i].key == key)
  }

  /** Entries are immutable once inserted: until `key` is explicitly removed, every
      later lookup of it observes the same handle, whatever else happens. */
  lemma {:induction false} EntryStableUntilRemoved(m: RunnerMap, ops: seq<Op>, key: Key)
    requires key in m
    requires NeverRemoves(ops, key)
    ensures key in ApplyAll(m, ops)
    ensures Lookup(ApplyAll(m, ops), key) == m[key]
    decreases |ops|
  {
    if |ops| > 0 {
      var m1 := Apply(m, ops[0]);
      assert !(ops[0].RemoveOp? && ops[0].key == key);
      assert key in m1 && m1[key] == m[key];
      assert NeverRemoves(ops[1..], key) by {
        forall i | 0 <= i < |ops[1..]|
          ensures !(ops[1..][i].RemoveOp? && ops[1..][i].key == key)
        {
          assert ops[1..][i] == ops[i + 1];
        }
      }
      EntryStableUntilRemoved(m1, ops[1..], key);
    }
  }

  /** No operation in `ops` installs a builder that yields null. */
  ghost predicate BuildersNonNull(ops: seq<Op>) {
    forall i :: 0 <= i < |ops| ==> ops[i].SetOp? ==> ops[i].builder() != Gives(Null)
  }

  /** The registry never holds a null handle as long as no builder produces one. */
  lemma {:induction false} NoNullsPreserved(m: RunnerMap, ops: seq<Op>)
    requires NoNulls(m)
    requires BuildersNonNull(ops)
    ensures NoNulls(ApplyAll(m, ops))
    decreases |ops|
  {
    if |ops| > 0 {
      var m1 := Apply(m, ops[0]);
      assert NoNulls(m1) by {
        forall k | k in m1
          ensures m1[k].Ptr?
        {
          if ops[0].SetOp? && k == ops[0].key && k !in m {
            assert m1[k] == ops[0].builder().handle;
          } else {
            assert k in m && m1[k] == m[k];
          }
        }
      }
      assert BuildersNonNull(ops[1..]) by {
        forall i | 0 <= i < |ops[1..]| && ops[1..][i].SetOp?
          ensures ops[1..][i].builder() != Gives(Null)
        {
          assert ops[1..][i] == ops[i + 1];
        }
      }
      NoNullsPreserved(m1, ops[1..]);
    }
  }

  /** The usage scenario of the management surface: insert, look up, insert again
      with another builder, remove, look up again. */
  lemma InstallLookupRemoveScenario(a: Runner, b: Runner)
    ensures var k := "K1";
            var s1 := SetGraphRunnerForKey(map[], k, () => Gives(Ptr(a)));
            var s2 := SetGraphRunnerForKey(s1.runners, k, () => Gives(Ptr(b)));
            var rm := RemoveGraphRunnerForKey(s2.runners, k);
            && s1.outcome == Gives(Ptr(a)) && Size(s1.runners) == 1
            && Lookup(s1.runners, k) == Ptr(a)
            && s2.outcome == Gives(Ptr(a)) && s2.builderCalls == 0 && Size(s2.runners) == 1
            && rm.existed && Size(rm.runners) == 0
            && Lookup(rm.runners, k) == Null
  {
  }
}

=== FILE: resolution.dfy ===
/**
  How the operator factory finds the graph runner for a fusion node
  (torch_glow/src/Registration.cpp, lines 100-125): first by the structural key
  of the node's subgraph block, then by the node's qualified symbol name, and
  only when both miss by installing a freshly built runner under the
  structural key.
 */
module Resolution {
  import opened Registry
  import opened StructuralKey

  /** A fusion node as the factory sees it: the address of its subgraph block and
      the qualified name of its kind. */
  datatype Node = Node(block: Word, symbol: string)

  /** Which step of the policy produced the runner. */
  datatype Tier = StructuralHit | SymbolicHit | Installed

  datatype Resolved = Resolved(runners: RunnerMap, handle: Handle, tier: Tier, builderCalls: nat)

  /** The structural key of the node's subgraph. */
  function NodeKey(e: Endianness, node: Node): (k: Key)
    ensures |k| == SizeOfSizeT
  {
    KeyOf(e, node.block)
  }

  /** The factory's key-resolution policy. `built` is the runner the
      CachingGraphRunner constructor would produce for this node; it is built only
      on the last step, and that builder never yields null. */
  function Resolve(m: RunnerMap, e: Endianness, node: Node, built: Runner): (r: Resolved)
    ensures var sk := NodeKey(e, node);
            && (r.tier == StructuralHit <==> Lookup(m, sk).Ptr?)
            && (r.tier == SymbolicHit <==> !Lookup(m, sk).Ptr? && Lookup(m, node.symbol).Ptr?)
            && (r.tier == StructuralHit ==> r.handle == m[sk])
            && (r.tier == SymbolicHit ==> r.handle == m[node.symbol])
            && (r.tier != Installed ==> r.runners == m && r.builderCalls == 0)
            && (r.tier == Installed ==> sk in r.runners && r.runners[sk] == r.handle)
            && (r.builderCalls == 1 <==> r.tier == Installed && sk !in m)
            && (r.tier == Installed && sk !in m ==>
                  r.handle == Ptr(built) && r.runners == m[sk := Ptr(built)])
            && r.builderCalls <= 1
            && SameExcept(m, r.runners, sk)
            && Extends(m, r.runners)
  {
    var sk := NodeKey(e, node);
    var byStructure := Lookup(m, sk);
    if byStructure.Ptr? then
      Resolved(m, byStructure, StructuralHit, 0)
    else
      var bySymbol := Lookup(m, node.symbol);
      if bySymbol.Ptr? then
        Resolved(m, bySymbol, SymbolicHit, 0)
      else
        var ins := SetGraphRunnerForKey(m, sk, () => Gives(Ptr(built)));
        Resolved(ins.runners, ins.outcome.handle, Installed, ins.builderCalls)
  }

  /** Structural precedence: a runner registered under the structural key is used
      even when another runner is registered under the node's symbol. */
  lemma StructuralPrecedence(m: RunnerMap, e: Endianness, node: Node, built: Runner, aot: Runner)
    requires Lookup(m, NodeKey(e, node)).Ptr?
    requires node.symbol != NodeKey(e, node)
    ensures var m' := m[node.symbol := Ptr(aot)];
            && Resolve(m', e, node, built).handle == m[NodeKey(e, node)]
            && Resolve(m', e, node, built).tier == StructuralHit
  {
  }

  /** The symbol is only a fallback: while the structural key hits, what the
      symbol maps to, or whether it maps at all, does not affect the outcome. */
  lemma SymbolIgnoredOnStructuralHit(m: RunnerMap, e: Endianness, node: Node, other: string, built: Runner)
    requires Lookup(m, NodeKey(e, node)).Ptr?
    ensures Resolve(m, e, node, built) == Resolve(m, e, Node(node.block, other), built)
  {
  }

  /** Resolution never creates, replaces or removes the entry of the node's symbol
      (nor of any key other than the structural one). */
  lemma SymbolicEntryUntouched(m: RunnerMap, e: Endianness, node: Node, built: Runner)
    requires node.symbol != NodeKey(e, node)
    ensures var r := Resolve(m, e, node, built);
            && (node.symbol in r.runners <==> node.symbol in m)
            && (node.symbol in m ==> r.runners[node.symbol] == m[node.symbol])
  {
  }

  /** A qualified symbol name whose length is not sizeof(size_t) is always a
      different key from the structural one, so the lemma above applies to it. */
  lemma SymbolOfOtherLengthIsNotStructural(e: Endianness, node: Node)
    requires |node.symbol| != SizeOfSizeT
    ensures node.symbol != NodeKey(e, node)
  {
  }

  /** Nodes over different subgraph blocks resolve through different structural
      entries, so building a runner for one never satisfies the other's
      structural lookup. */
  lemma DistinctBlocksDistinctEntries(e: Endianness, a: Node, b: Node)
    requires a.block != b.block
    ensures NodeKey(e, a) != NodeKey(e, b)
  {
    KeyOfInjective(e, a.block, b.block);
  }

  /** If no entry is null, resolution always hands the wrapper a runner, and the
      registry still has no null entry afterwards. */
  lemma ResolveNeverNull(m: RunnerMap, e: Endianness, node: Node, built: Runner)
    requires NoNulls(m)
    ensures Resolve(m, e, node, built).handle.Ptr?
    ensures NoNulls(Resolve(m, e, node, built).runners)
  {
    var sk := NodeKey(e, node);
    var r := Resolve(m, e, node, built);
    forall k | k in r.runners
      ensures r.runners[k].Ptr?
    {
      if k != sk {
        assert k in m;
      }
    }
  }

  /** Resolving the same node again, with whatever runner the constructor would
      now produce, finds the same handle, builds nothing and changes nothing. */
  lemma ResolveIdempotent(m: RunnerMap, e: Endianness, node: Node, built: Runner, built2: Runner)
    ensures var r1 := Resolve(m, e, node, built);
            var r2 := Resolve(r1.runners, e, node, built2);
            && r2.handle == r1.handle
            && r2.runners == r1.runners
            && r2.builderCalls == 0
  {
  }

  /** The factory invoked once per runner the constructor could produce, on the
      same node: the final map, the handles handed out, and the number of builds. */
  function ResolveMany(m: RunnerMap, e: Endianness, node: Node, built: seq<Runner>): (RunnerMap, seq<Handle>, nat)
    decreases |built|
  {
    if |built| == 0 then
      (m, [], 0)
    else
      var first := Resolve(m, e, node, built[0]);
      var rest := ResolveMany(first.runners, e, node, built[1..]);
      (rest.0, [first.handle] + rest.1, first.builderCalls + rest.2)
  }

  /** No recompilation: however often the factory runs for one node, at most one
      runner is ever built for it and every invocation gets the same handle. */
  lemma {:induction false} CompiledAtMostOnce(m: RunnerMap, e: Endianness, node: Node, built: seq<Runner>)
    requires |built| > 0
    ensures var (m', handles, calls) := ResolveMany(m, e, node, built);
            var r1 := Resolve(m, e, node, built[0]);
            && calls == r1.builderCalls
            && calls <= 1
            && m' == r1.runners
            && |handles| == |built|
            && forall i :: 0 <= i < |handles| ==> handles[i] == r1.handle
    decreases |built|
  {
    var r1 := Resolve(m, e, node, built[0]);
    if |built| > 1 {
      CompiledAtMostOnce(r1.runners, e, node, built[1..]);
      ResolveIdempotent(m, e, node, built[0], built[1..][0]);
    }
  }
}

=== FILE: structural_key.dfy ===
/**
  The structural key the operator factory derives from a subgraph
  (torch_glow/src/Registration.cpp, lines 106-109): the address of the
  subgraph's block is cast to a size_t and its sizeof(size_t) bytes are copied
  into a string. The byte order is the platform's, so it is a parameter here.
 */
module StructuralKey {

  /** sizeof(size_t) on the 64-bit platforms the source targets. */
  const SizeOfSizeT: nat := 8

  /** 2^64: one more than the largest size_t. */
  const WordModulus: nat := 0x1_0000_0000_0000_0000

  /** The size_t the block address is cast to. */
  type Word = x: nat | x < WordModulus

  type Byte = b: nat | b < 256

  /** The byte order memcpy copies a size_t in. */
  datatype Endianness = LittleEndian | BigEndian

  /** 256^n: the number of values n bytes can hold. */
  function Pow256(n: nat): (p: nat)
    ensures p > 0
  {
    if n == 0 then 1 else 256 * Pow256(n - 1)
  }

  /** The n low-order bytes of x, least significant first. */
  function LittleBytes(x: nat, n: nat): (bs: seq<Byte>)
    ensures |bs| == n
  {
    if n == 0 then [] else [x % 256] + LittleBytes(x / 256, n - 1)
  }

  /** The number whose bytes, least significant first, are `bs`. */
  function LittleValue(bs: seq<Byte>): nat
  {
    if |bs| == 0 then 0 else bs[0] + 256 * LittleValue(bs[1..])
  }

  function Reverse(bs: seq<Byte>): (r: seq<Byte>)
    ensures |r| == |bs|
    ensures forall i :: 0 <= i < |bs| ==> r[i] == bs[|bs| - 1 - i]
  {
    if |bs| == 0 then [] else Reverse(bs[1..]) + [bs[0]]
  }

  /** Reading n bytes back gives the number they were taken from, when it fits. */
  lemma {:induction false} LittleRoundTrip(x: nat, n: nat)
    requires x < Pow256(n)
    ensures LittleValue(LittleBytes(x, n)) == x
  {
    if n > 0 {
      var bs := LittleBytes(x, n);
      assert bs[1..] == LittleBytes(x / 256, n - 1);
      LittleRoundTrip(x / 256, n - 1);
    }
  }

  lemma {:induction false} ReverseInvolution(bs: seq<Byte>)
    ensures Reverse(Reverse(bs)) == bs
  {
    var r := Reverse(Reverse(bs));
    assert |r| == |bs|;
    forall i | 0 <= i < |bs|
      ensures r[i] == bs[i]
    {
      assert Reverse(bs)[|bs| - 1 - i] == bs[|bs| - 1 - (|bs| - 1 - i)];
    }
  }

  lemma WordFitsKey()
    ensures Pow256(SizeOfSizeT) == WordModulus
  {
  }

  /** The bytes memcpy copies out of a size_t, in memory order. */
  function WordBytes(e: Endianness, w: Word): (bs: seq<Byte>)
    ensures |bs| == SizeOfSizeT
  {
    var little := LittleBytes(w, SizeOfSizeT);
    if e == LittleEndian then little else Reverse(little)
  }

  /** The size_t the bytes of a structural key were copied from. */
  function WordFromBytes(e: Endianness, bs: seq<Byte>): nat
  {
    if e == LittleEndian then LittleValue(bs) else LittleValue(Reverse(bs))
  }

  /** The structural key of the block at address `w`: a string of
      sizeof(size_t) characters, one per byte of the address. */
  function KeyOf(e: Endianness, w: Word): (k: string)
    ensures |k| == SizeOfSizeT
    ensures IsByteString(k)
  {
    var bs := WordBytes(e, w);
    seq(SizeOfSizeT, i requires 0 <= i < SizeOfSizeT => bs[i] as char)
  }

  /** A string every character of which is one byte. */
  ghost predicate IsByteString(k: string) {
    forall i :: 0 <= i < |k| ==> k[i] as int < 256
  }

  /** Reads a byte string back as the address it encodes. */
  function WordOfKey(e: Endianness, k: string): nat
    requires IsByteString(k)
  {
    WordFromBytes(e, seq(|k|, i requires 0 <= i < |k| => k[i] as int as Byte))
  }

  /** Decoding a structural key recovers the block address it was made from. */
  lemma KeyRoundTrip(e: Endianness, w: Word)
    ensures IsByteString(KeyOf(e, w))
    ensures WordOfKey(e, KeyOf(e, w)) == w
  {
    var k := KeyOf(e, w);
    var little := LittleBytes(w, SizeOfSizeT);
    var back := seq(|k|, i requires 0 <= i < |k| => k[i] as int as Byte);
    assert back == WordBytes(e, w);
    WordFitsKey();
    LittleRoundTrip(w, SizeOfSizeT);
    if e == BigEndian {
      ReverseInvolution(little);
    }
  }

  /** Distinct blocks never share a structural key, on either byte order. */
  lemma KeyOfInjective(e: Endianness, a: Word, b: Word)
    ensures KeyOf(e, a) == KeyOf(e, b) <==> a == b
  {
    if KeyOf(e, a) == KeyOf(e, b) {
      KeyRoundTrip(e, a);
      KeyRoundTrip(e, b);
    }
  }
}

=== FILE: wrappers.dfy ===
/** The result type the execution wrapper reports its outcome in. */
module Wrappers {

  /** Either the value an operation produced or the failure it raised. */
  datatype Result<+R, +E> = Success(value: R) | Failure(error: E)
}
